=== FILE: README.md ===
# Swapping batch renamer, in Dafny

A model of `batch_renamer`'s renaming core. The tool walks a directory, optionally
recursively. For every file whose extension is one of the listed ones, it cuts the file
stem at the split separator and trims each piece. When exactly two pieces result, it
renames the file to the pieces in swapped order. The pieces are joined by the join
separator, with the padding on both sides, and the extension is put back. The tool
counts the renames and stops at the first I/O error.

The model has these modules:

- `Strings` (`strings.dfy`) holds the library behaviour the core relies on.
  - `Trim` is `str::trim`: Unicode White_Space at both ends.
  - `RSplit` is `str::rsplit` with a string pattern, collected into a vector. It splits
    at every non-overlapping match, searched from the right. An empty pattern matches at
    every char boundary.
  - `Join` is `[&str]::join`.
- `Paths` (`paths.dfy`) holds `Path::file_stem` and `Path::extension`. A name splits at
  its final '.'. The name ".." and a name whose only '.' is its first character have no
  extension.
- `Swap` (`swap.dfy`) holds the per-file decision `Decide`. A file is unmatched (left
  alone silently), skipped (with a notice), or renamed to a new name.
- `Walk` (`walk.dfy`) holds the directory walk of `rename_files_swapped`, over an
  abstract tree. The three failure points of the real file system are data in the tree:
  - a directory that cannot be listed (`listable`);
  - an entry that cannot be read (`Unreadable`);
  - a file whose rename fails (`movable`).

  The walk takes the per-file decision as a parameter. It returns the tree it leaves
  behind and either the count or the error.
- `Invocation` (`invocation.dfy`) holds what `main` does around the walk. It unescapes
  the split separator, picks the join separator, runs the walk and reports the outcome.
- `Scenarios` (`scenarios.dfy`) holds worked names such as "song-title.mp3" and what
  becomes of each.

The stem is cut with `rsplit`, which cuts at *every* occurrence of the split separator,
not only at the last one. A stem such as "a-b-c" therefore yields three pieces and is
skipped rather than renamed to "c-a-b" (`Scenarios.ThreePiecesSkipped`,
`Swap.SingleCharSeparator`). Where matches of a longer separator overlap, the
right-most match is taken first (`Strings.RSplitRightmostFirst`,
`Scenarios.OverlappingSeparator`).

Only the first separator value is unescaped. A backslash in the second (join) value is
kept as it is (`Invocation.RuleOf`).

## Model

| member | source | states |
|---|---|---|
| Strings.TrimStart | src/main.rs:76 | The result is a suffix of the input. Everything removed is whitespace. The result is empty or starts with non-whitespace. |
| Strings.IsWhitespace | src/main.rs:76 | No contract of its own: the Unicode White_Space characters that `char::is_whitespace` accepts, which the trim lemmas below are stated over. |
| Strings.TrimEnd | src/main.rs:76 | The result is a prefix of the input. Everything removed is whitespace. The result is empty or ends with non-whitespace. |
| Strings.Trim | src/main.rs:76 | A trimmed piece is no longer than the piece. It is empty or has non-whitespace at both ends. |
| Strings.TrimKeepsInterior | src/main.rs:76 | A trimmed piece is a contiguous slice of the piece, and only whitespace is cut from either side. |
| Strings.TrimFixpoint | src/main.rs:76 | A piece is its own trim exactly when it is empty or neither end is whitespace. |
| Strings.TrimIdempotent | src/main.rs:76 | Trimming twice is trimming once. |
| Strings.FindLast | src/main.rs:74-75 | The right-most occurrence of the separator is found, with none after it. Nothing is found exactly when the separator does not occur. |
| Strings.RSplit | src/main.rs:74-77 | rsplit always yields at least one piece. |
| Strings.RSplitRightmostFirst | src/main.rs:74-77 | rsplit cuts at the right-most match first. When the separator occurs, the first piece is what follows its right-most occurrence, and the rest are the pieces of what precedes it. When it does not occur, the stem is the only piece. |
| Strings.RSplitLastMatchOnly | src/main.rs:74-77 | When no match lies before the right-most one, rsplit yields exactly what follows that match and what precedes it. |
| Strings.Join | src/main.rs:86-87 | No contract of its own: `[&str]::join` over the trimmed pieces collected at src/main.rs:77, characterised by RSplitRoundTrip and Swap.JoinPair. |
| Strings.RSplitRoundTrip | src/main.rs:74-77 | Joining the pieces back in left-to-right order with the separator rebuilds the stem, for every stem and separator, the empty separator included. |
| Strings.RSplitPiecesFree | src/main.rs:74-77 | With a non-empty separator, no piece contains the separator. |
| Strings.RSplitSingleOccurrence | src/main.rs:74-77 | When the only occurrence of the separator in `a + sep + b` is between them, rsplit yields exactly `[b, a]`. |
| Strings.RSplitCharCount | src/main.rs:74-80 | With a one-character separator, the number of pieces is one more than the number of times that character occurs in the stem. |
| Strings.RSplitEmpty | src/main.rs:74-77 | With an empty separator, rsplit yields an empty piece at each end, and between them one single-char piece per char of the stem, the last char first. |
| Strings.RSplitEmptyPatternCount | src/main.rs:74-83 | An empty separator gives `|stem| + 2` pieces, so three or more for any non-empty stem. |
| Paths.SplitExtension | src/main.rs:69-73 | When there is an extension, the name is a non-empty stem, a '.', and an extension that has no '.'. There is no extension exactly when the name is ".." or has no '.' after its first character. Without an extension, the stem is the whole name. |
| Paths.SplitExtensionOfJoined | src/main.rs:69-73 | A non-empty stem joined by '.' to a dot-free extension splits back into exactly that stem and extension. |
| Swap.Decide | src/main.rs:69-90 | A file is left alone silently exactly when it has no listed extension. That is, it has no '.' after its first character, or it is "..", or the text after its final '.' is not in the list. |
| Swap.ListedExtension | src/main.rs:69-72 | The extension `Path` reports is in the list exactly when three things hold: the name is not "..", its final '.' is not its first character, and the text after that '.' equals a listed extension. The match is case-sensitive and exact. |
| Swap.UnlistedExtensionUnmatched | src/main.rs:69-72 | A name whose extension is not listed, in the exact letter case, is left alone. |
| Swap.HiddenNameUnmatched | src/main.rs:69 | A name whose only '.' is its first character has no extension and is left alone. |
| Swap.Glue | src/main.rs:85 | No contract of its own: the padding, the join separator and the padding again, as used by RenameSwapsHalves and DecideTwoPieces. |
| Swap.TrimAll | src/main.rs:76-77 | Every piece is trimmed, and the number and order of the pieces are kept. |
| Swap.JoinPair | src/main.rs:85-87 | Joining two pieces puts the separator between them. |
| Swap.EmptySeparatorNeverRenames | src/main.rs:74-83 | An empty split separator never leads to a rename. |
| Swap.RenameSwapsHalves | src/main.rs:73-90 | A renamed file's name was `before + sep + after + "." + ext`, with the separator in neither half and `ext` listed. Its new name is `trim(after) + padding + join + padding + trim(before) + "." + ext`. |
| Swap.DecideTwoPieces | src/main.rs:73-90 | A listed file whose stem rsplits into two pieces is renamed to the trimmed pieces, last first, around the padded join separator, followed by "." and the extension. |
| Swap.SwapOfSingleOccurrence | src/main.rs:73-90 | Conversely, a listed file whose stem holds the separator exactly once is renamed to its trimmed halves, swapped. |
| Swap.SwapAroundChar | src/main.rs:73-90 | The same, for a one-character separator absent from both halves. |
| Swap.SingleCharSeparator | src/main.rs:74-83 | With a one-character separator, a listed file is renamed exactly when its stem holds the character once. It is skipped exactly when the stem holds it zero times or two or more. |
| Swap.SwapTwiceRestores | src/main.rs:74-90 | With the same one-character separator for split and join, no padding, and pieces without surrounding whitespace, renaming the new name again gives back the original name. |
| Walk.WalkDir | src/main.rs:53-104 | The walk itself. Its own contract says only that a directory keeps its listability and number of entries. It is characterised by HealthyWalk, WalkFailsIffUnhealthy, AbortKeepsRest and WalkEvolves. |
| Walk.WalkEntries | src/main.rs:59-101 | The loop over a listing. It keeps the listing's length and is characterised by HealthyWalkEntries and AbortKeepsRest. |
| Walk.WalkEntry | src/main.rs:60-99 | One entry. A subdirectory stays a subdirectory of the same name, a file stays a file with the same movability, and an unreadable entry is left as it is. It is characterised by HealthyWalkEntry. |
| Walk.HealthyWalk | src/main.rs:53-104 | On a tree with no I/O failure, the walk succeeds. It leaves every file it reaches under its new name. It returns the number of reached files the rule renames, where subdirectory files count only in a recursive walk. |
| Walk.HealthyWalkEntries | src/main.rs:59-101 | The same for one listing: the count is the sum over its entries, in order. |
| Walk.HealthyWalkEntry | src/main.rs:60-99 | A subdirectory contributes its own walk when recursive and nothing otherwise. A file contributes one exactly when it is renamed. |
| Walk.CountRenamesAppend | src/main.rs:57-98 | The count over two runs of names is the sum of their counts. |
| Walk.WalkFailsIffUnhealthy | src/main.rs:56-96 | The walk returns an error exactly when some directory it reaches cannot be listed, some entry cannot be read, or some file it renames cannot be moved. |
| Walk.UnhealthyFails | src/main.rs:56 | A directory that cannot be listed, or that has a failing entry, ends the walk with an error. |
| Walk.AbortKeepsRest | src/main.rs:59-101 | The first failing entry ends the walk with its own error. The entries before it keep their renames, and the entries after it are left untouched. |
| Walk.WalkEvolves | src/main.rs:59-101 | Whether it fails or not, the walk keeps the tree's shape and the directories' names. Every file keeps its place in its parent directory and either its name or its new name. A non-recursive walk leaves every subdirectory exactly as it was. |
| Walk.VisitedAfterRenaming | src/main.rs:92-96 | After renaming, the files the walk reaches carry, in order, the new names of the files it reached before. |
| Walk.NonRecursiveIgnoresSubdirs | src/main.rs:61-67 | A non-recursive walk never looks inside a subdirectory. Listings that differ only in their subdirectories' contents give the same outcome and the same renames. |
| Invocation.Unescape | src/main.rs:117-118 | The split separator has no backslash left. Its length is the value's length less the backslashes. Every other character occurs as often as in the value. |
| Invocation.UnescapeAppend | src/main.rs:118 | Unescaping works character by character: it distributes over concatenation. |
| Invocation.UnescapeKeeps | src/main.rs:118 | A value is used unchanged exactly when it holds no backslash. |
| Invocation.UnescapeIdempotent | src/main.rs:118 | Unescaping an unescaped separator changes nothing. |
| Invocation.RuleOf | src/main.rs:117-120 | The split separator is the first value without backslashes. The join separator is the second value unchanged when there is one, else the split separator. Extensions and padding pass through. |
| Invocation.ReportOf | src/main.rs:121-128 | A failed walk panics. A count of zero gives the "no files were renamed" message. Any other count is reported as it is. |
| Invocation.ConfigOf | src/main.rs:117-121 | No contract of its own: the walk's settings, whose per-file decision is `Swap.Decide` under RuleOf. |
| Invocation.Run | src/main.rs:121 | No contract of its own: the walk from the given directory under ConfigOf, characterised by RunReport. |
| Invocation.RunReport | src/main.rs:121-128 | A run panics exactly when the tree has an I/O failure on the walk's path. Otherwise it renames every reached file to its new name and reports the count of renamed reached files. |
| Invocation.EscapedSeparatorSameRun | src/main.rs:117-121 | Two first separator values that unescape alike, such as `\-` and `-`, give exactly the same run. |
| Invocation.BackslashSeparatorRenamesNothing | src/main.rs:118-127 | A split separator made only of backslashes unescapes to the empty separator. On a healthy tree, such a run changes nothing and reports that no files were renamed. |
| Scenarios.SongTitle | src/main.rs:74-90 | "song-title.mp3" becomes "title" + padding + join + padding + "song.mp3". |
| Scenarios.PiecesTrimmedAway | src/main.rs:74-90 | With a one-character separator other than a space, single spaces around each half are trimmed away before the swap. |
| Scenarios.EmptyPiece | src/main.rs:74-90 | "-b.mp3" has two pieces, one of them empty, and becomes "b" + glue + ".mp3". |
| Scenarios.OverlappingSeparator | src/main.rs:74-90 | With the separator "--", "a---b.mp3" is cut at its last two dashes and becomes "b" + glue + "a-.mp3". |
| Scenarios.DoubleDashPieces | src/main.rs:74-77 | "a---b" rsplit at "--" yields exactly "b" and "a-". |
| Scenarios.ThreePiecesSkipped | src/main.rs:74-83 | With the separator "-", any stem `a-b-c` whose parts hold no dash, such as "a-b-c", is cut into three pieces and skipped, not renamed to "c-a-b". |
| Scenarios.NoSeparatorSkipped | src/main.rs:74-83 | With the separator "-", any non-empty stem without a dash, such as "track", is a candidate and is skipped. |
| Scenarios.UnlistedNotCandidate | src/main.rs:69-72 | "report.txt" is not a candidate when only "mp3" is listed. |
| Scenarios.UpperCaseNotCandidate | src/main.rs:69-72 | "a-b.MP3" is not a candidate when "mp3" is listed. |
| Scenarios.HiddenNotCandidate | src/main.rs:69 | ".mp3" has no extension and is not a candidate. |

## Left out

- Command-line parsing by clap, with its defaults and help text (src/main.rs:7-37, 107, 111-115). `Invocation.Args` is the already-parsed command line, and the directory argument is given as the tree it names.
- Console output: the skip and rename notices and the opening line (src/main.rs:81, 94, 108-109). Of the closing messages (src/main.rs:124-128), only which one is printed is modelled, by `Invocation.ReportOf`.
- The real file system calls `fs::read_dir`, `is_dir` and `fs::rename` are modelled as an abstract tree:
  - The order of entries is the order of the tree's entry sequence, whereas `read_dir` leaves its order unspecified.
  - `is_dir` following symbolic links is not modelled. With `-r`, a link back to an enclosing directory makes the tool go round the cycle again and again, renaming the files it reaches on every pass. This goes on until resolving the path exceeds the operating system's limit on nested links. `is_dir` reports a failed lookup as "not a directory", so the innermost link is then treated as a file and the walk still ends with `Ok`. A `Dir` is a finite tree, and the walk's `decreases d` relies on that, so such a cycle cannot be expressed.
  - The causes of the I/O errors are not modelled, only where they occur.
- Entries that a platform's `read_dir` may list again after being renamed during the walk: the model visits each listed entry exactly once.
- Collisions: a rename onto an existing name overwrites it on some platforms. The model keeps both entries under their names.
- Path handling: a new name containing '/' would move the file elsewhere. Names are single path components here.
- The `unwrap`/`expect` panics on non-UTF-8 paths (src/main.rs:64, 70, 73, 79, 93): names here are sequences of Unicode characters.
- The `u64` overflow of the rename counter: the count is an unbounded natural number.

=== FILE: invocation.dfy ===
/**
 What `main` does around the walk: it turns the separator values into the split and join
 separators, runs the walk over the directory with the per-file decision of `Swap`, and
 reports the outcome.
 */
module Invocation {
  import opened Swap
  import opened Walk
  import Strings

  /** The parsed command line, the directory itself given as the tree it names. */
  datatype Args = Args(extensions: seq<string>, separator: seq<string>, padding: string, recursive: bool)

  /** What the run ends with: a panic on an I/O error, or one of the two closing messages. */
  datatype Report = Panicked | NothingRenamed | RenamedFiles(count: nat)

  /** The separator with every backslash removed, so that an escaped "\-" means "-". */
  function Unescape(s: string): (r: string)
    ensures '\\' !in r
    ensures |r| == |s| - multiset(s)['\\']
    ensures forall c :: c != '\\' ==> multiset(r)[c] == multiset(s)[c]
  {
    if s == [] then []
    else
      assert s == [s[0]] + s[1..];
      (if s[0] == '\\' then [] else [s[0]]) + Unescape(s[1..])
  }

  /** Unescaping works character by character: it distributes over concatenation. */
  lemma {:induction false} UnescapeAppend(a: string, b: string)
    ensures Unescape(a + b) == Unescape(a) + Unescape(b)
  {
    if a == [] {
      assert a + b == b;
    } else {
      assert (a + b)[0] == a[0] && (a + b)[1..] == a[1..] + b;
      UnescapeStep(a + b);
      UnescapeStep(a);
      UnescapeAppend(a[1..], b);
      Strings.AppendAssoc(if a[0] == '\\' then [] else [a[0]], Unescape(a[1..]), Unescape(b));
    }
  }

  lemma UnescapeStep(s: string)
    requires s != []
    ensures Unescape(s) == (if s[0] == '\\' then [] else [s[0]]) + Unescape(s[1..])
  {
  }

  /** A separator is left as it is exactly when it holds no backslash. */
  lemma UnescapeKeeps(s: string)
    ensures Unescape(s) == s <==> '\\' !in s
  {
    if '\\' in s {
      assert |Unescape(s)| < |s|;
    } else {
      NoBackslashKept(s);
    }
  }

  lemma {:induction false} NoBackslashKept(s: string)
    requires '\\' !in s
    ensures Unescape(s) == s
  {
    if s != [] {
      assert s[0] != '\\';
      NoBackslashKept(s[1..]);
    }
  }

  /** Unescaping twice is unescaping once. */
  lemma UnescapeIdempotent(s: string)
    ensures Unescape(Unescape(s)) == Unescape(s)
  {
    UnescapeKeeps(Unescape(s));
  }

  /**
   The rule of a run. Only the first separator value is unescaped; the join separator is the
   second value as given, or, when there is none, the unescaped split separator.
   */
  function RuleOf(args: Args): (rule: Rule)
    requires |args.separator| >= 1
    ensures '\\' !in rule.oldSep
    ensures Unescape(rule.oldSep) == Unescape(args.separator[0])
    ensures |args.separator| == 1 ==> rule.newSep == rule.oldSep
    ensures |args.separator| >= 2 ==> rule.newSep == args.separator[1]
    ensures rule.extensions == args.extensions && rule.padding == args.padding
  {
    var split := Unescape(args.separator[0]);
    UnescapeIdempotent(args.separator[0]);
    Rule(args.extensions, split, if |args.separator| > 1 then args.separator[1] else split, args.padding)
  }

  /** The settings the walk runs with. */
  function ConfigOf(args: Args): Config
    requires |args.separator| >= 1
  {
    var rule := RuleOf(args);
    Config(name => Decide(name, rule), args.recursive)
  }

  /** A whole run over the tree `root`. */
  function Run(root: Dir, args: Args): Walked<Dir>
    requires |args.separator| >= 1
  {
    WalkDir(root, ConfigOf(args))
  }

  /** The end of `main`: a failed walk panics; otherwise one of two messages, by the count. */
  function ReportOf(o: Outcome): (r: Report)
    ensures r.Panicked? <==> o.Failed?
    ensures r.NothingRenamed? <==> o == Done(0)
    ensures r.RenamedFiles? ==> r.count >= 1 && o == Done(r.count)
  {
    match o
    case Failed(_) => Panicked
    case Done(n) => if n == 0 then NothingRenamed else RenamedFiles(n)
  }

  /**
   A run panics exactly when the tree is not healthy for its settings; otherwise it renames
   every file it reaches to its new name and reports how many it renamed.
   */
  lemma RunReport(root: Dir, args: Args)
    requires |args.separator| >= 1
    ensures ReportOf(Run(root, args).outcome).Panicked? <==> !Healthy(root, ConfigOf(args))
    ensures Healthy(root, ConfigOf(args)) ==>
              && Run(root, args).after == RenamedTree(root, ConfigOf(args))
              && Run(root, args).outcome
                 == Done(CountRenames(Visited(root, args.recursive), ConfigOf(args).decide))
  {
    WalkFailsIffUnhealthy(root, ConfigOf(args));
    if Healthy(root, ConfigOf(args)) {
      HealthyWalk(root, ConfigOf(args));
    }
  }

  /** Escaping the split separator changes nothing: `-s '\-'` runs exactly as `-s -`. */
  lemma EscapedSeparatorSameRun(root: Dir, args: Args, plain: string)
    requires |args.separator| >= 1 && Unescape(args.separator[0]) == Unescape(plain)
    ensures Run(root, args) == Run(root, args.(separator := [plain] + args.separator[1..]))
  {
    var other := args.(separator := [plain] + args.separator[1..]);
    assert other.separator[1..] == args.separator[1..];
    assert RuleOf(other) == RuleOf(args);
  }

  /**
   A split separator made only of backslashes unescapes to the empty separator, which
   renames nothing: a healthy run ends with the "no files were renamed" message.
   */
  lemma BackslashSeparatorRenamesNothing(root: Dir, args: Args)
    requires |args.separator| >= 1 && Unescape(args.separator[0]) == []
    requires Healthy(root, ConfigOf(args))
    ensures Run(root, args).after == root
    ensures ReportOf(Run(root, args).outcome) == NothingRenamed
  {
    var cfg := ConfigOf(args);
    forall name: string
      ensures !cfg.decide(name).Rename?
    {
      EmptySeparatorNeverRenames(name, RuleOf(args));
    }
    RunReport(root, args);
    NothingCounted(Visited(root, args.recursive), cfg.decide);
    NothingRenamedTree(root, cfg);
  }

  lemma {:induction false} NothingCounted(names: seq<string>, decide: string -> Decision)
    requires forall name :: !decide(name).Rename?
    ensures CountRenames(names, decide) == 0
  {
    if names != [] {
      NothingCounted(names[1..], decide);
    }
  }

  lemma {:induction false} NothingRenamedTree(d: Dir, cfg: Config)
    requires forall name :: !cfg.decide(name).Rename?
    ensures RenamedTree(d, cfg) == d
    decreases d
  {
    NothingRenamedEntries(d.entries, cfg);
  }

  lemma {:induction false} NothingRenamedEntries(es: seq<Entry>, cfg: Config)
    requires forall name :: !cfg.decide(name).Rename?
    ensures RenamedEntries(es, cfg) == es
    decreases es
  {
    if es != [] {
      if es[0].Subdir? && cfg.recursive {
        NothingRenamedTree(es[0].dir, cfg);
      }
      NothingRenamedEntries(es[1..], cfg);
      assert es == [es[0]] + es[1..];
    }
  }
}

=== FILE: paths.dfy ===
/**
 How Rust's `Path::file_stem` and `Path::extension` take a file name apart: at its
 final '.', except that the name ".." and a name whose only '.' is its first
 character (a hidden file such as ".hidden") have no extension and are all stem.
 */
module Paths {
  import opened Wrappers
  import opened Strings

  datatype NameParts = NameParts(stem: string, ext: Option<string>)

  /** The name has a '.' somewhere after its first character. */
  predicate HasInnerDot(name: string) {
    exists k :: 1 <= k < |name| && name[k] == '.'
  }

  /** The stem and extension of a file name. */
  function SplitExtension(name: string): (r: NameParts)
    ensures r.ext.Some? ==> r.stem != [] && '.' !in r.ext.value
    ensures r.ext.Some? ==> name == r.stem + "." + r.ext.value
    ensures r.ext.None? ==> r.stem == name
    ensures r.ext.None? <==> (name == ".." || !HasInnerDot(name))
  {
    if name == ".." then NameParts(name, None)
    else
      match FindLast(name, ".")
      case None =>
        NoDotAnywhere(name);
        NameParts(name, None)
      case Some(i) =>
        OccursAtChar(name, '.', i);
        if i == 0 then
          NoDotAfter(name, 0);
          NameParts(name, None)
        else
          NoDotAfter(name, i);
          SplitAround(name, ".", i);
          NameParts(name[..i], Some(name[i + 1..]))
  }

  lemma NoDotAnywhere(name: string)
    requires FindLast(name, ".") == None
    ensures !HasInnerDot(name)
  {
    if HasInnerDot(name) {
      var k :| 1 <= k < |name| && name[k] == '.';
      OccursAtChar(name, '.', k);
      assert false;
    }
  }

  lemma NoDotAfter(name: string, i: nat)
    requires FindLast(name, ".") == Some(i)
    ensures '.' !in name[i + 1..]
    ensures forall k :: i < k < |name| ==> name[k] != '.'
  {
    forall k | i < k < |name|
      ensures name[k] != '.'
    {
      OccursAtChar(name, '.', k);
    }
  }

  /** Putting a stem and an extension together and taking them apart again gives them back. */
  lemma SplitExtensionOfJoined(stem: string, ext: string)
    requires stem != [] && '.' !in ext
    requires stem + "." + ext != ".."
    ensures SplitExtension(stem + "." + ext) == NameParts(stem, Some(ext))
  {
    var name := stem + "." + ext;
    assert name[|stem|] == '.';
    OccursAtChar(name, '.', |stem|);
    var r := FindLast(name, ".");
    assert r.Some?;
    if r.value != |stem| {
      OccursAtChar(name, '.', r.value);
      assert false;
    }
    assert name[..|stem|] == stem;
    assert name[|stem| + 1..] == ext;
  }
}

=== FILE: scenarios.dfy ===
/**
 Worked file names and the renamer's behaviour on each, for any settings that split at
 the stated separator and list "mp3", whatever the join separator and padding are.

 The names are written as concatenations of their parts, the separator part being
 `rule.oldSep` and the extension part `"." + "mp3"`, so that each matches the general
 lemma about names of that shape. A name written as one literal would make the verifier
 evaluate `Decide` on it, which is far more costly than the general lemmas.
 */
module Scenarios {
  import opened Strings
  import opened Paths
  import opened Swap

  /** The settings `-e mp3 -s -`, with any join separator and padding. */
  predicate DashRule(rule: Rule) {
    rule.oldSep == "-" && "mp3" in rule.extensions
  }

  /** A word with no surrounding whitespace. */
  predicate Bare(s: string) {
    s == [] || (!IsWhitespace(s[0]) && !IsWhitespace(s[|s| - 1]))
  }

  /** "song-title.mp3" becomes "title" + glue + "song.mp3"; with `-p " "` that is "title - song.mp3". */
  lemma SongTitle(rule: Rule)
    requires DashRule(rule)
    ensures Decide("song" + rule.oldSep + "title" + "." + "mp3", rule) == Rename("title" + Glue(rule) + "song" + "." + "mp3")
  {
    SwapBare("song", "title", "mp3", rule);
  }

  /** Whitespace around each piece is trimmed away: " song - title .mp3" swaps like "song-title.mp3". */
  lemma PiecesTrimmedAway(before: string, after: string, ext: string, rule: Rule)
    requires |rule.oldSep| == 1 && rule.oldSep[0] !in before && rule.oldSep[0] !in after && rule.oldSep[0] != ' '
    requires |before| >= 1 && |after| >= 1 && Bare(before) && Bare(after)
    requires ext in rule.extensions && '.' !in ext
    ensures Decide([' '] + before + [' '] + rule.oldSep + [' '] + after + [' '] + "." + ext, rule)
            == Rename(after + Glue(rule) + before + "." + ext)
  {
    var b, a := [' '] + before + [' '], [' '] + after + [' '];
    PaddedName(before, after, rule.oldSep, ext);
    PaddedFree(before, rule.oldSep[0]);
    PaddedFree(after, rule.oldSep[0]);
    SwapAroundChar(b, a, ext, rule);
    PaddedWord(b, before);
    PaddedWord(a, after);
  }

  /** The name with padded halves, regrouped around its separator. */
  lemma PaddedName(before: string, after: string, sep: string, ext: string)
    ensures var name := ([' '] + before + [' ']) + sep + ([' '] + after + [' ']) + "." + ext;
      && name == [' '] + before + [' '] + sep + [' '] + after + [' '] + "." + ext
      && name != ".."
  {
    var name := ([' '] + before + [' ']) + sep + ([' '] + after + [' ']) + "." + ext;
    assert |name| > 2;
  }

  /** Padding a word with spaces adds no other character. */
  lemma PaddedFree(w: string, c: char)
    requires c !in w && c != ' '
    ensures c !in [' '] + w + [' ']
  {
  }

  /** An empty piece is still a piece: "-b.mp3" becomes "b" + glue + ".mp3". */
  lemma EmptyPiece(rule: Rule)
    requires DashRule(rule)
    ensures Decide(rule.oldSep + "b" + "." + "mp3", rule) == Rename("b" + Glue(rule) + "." + "mp3")
  {
    SwapBare("", "b", "mp3", rule);
    assert "" + rule.oldSep == rule.oldSep;
    assert "b" + Glue(rule) + "" == "b" + Glue(rule);
  }

  /**
   Overlapping matches are taken from the right: with the separator "--", "a---b.mp3"
   is cut at its last two dashes into "a-" and "b", and becomes "b" + glue + "a-.mp3".
   */
  lemma OverlappingSeparator(rule: Rule)
    requires rule.oldSep == "--" && "mp3" in rule.extensions
    ensures Decide("a-" + rule.oldSep + "b" + "." + "mp3", rule) == Rename("b" + Glue(rule) + "a-" + "." + "mp3")
  {
    var stem := "a-" + rule.oldSep + "b";
    assert stem == "a---b";
    DoubleDashPieces();
    SplitExtensionOfJoined(stem, "mp3");
    DecideTwoPieces(stem + "." + "mp3", rule, stem, "mp3", "b", "a-");
    BareDashWords();
  }

  /** Neither "b" nor "a-" has whitespace to trim. */
  lemma BareDashWords()
    ensures Trim("b") == "b" && Trim("a-") == "a-"
  {
    TrimFixpoint("b");
    TrimFixpoint("a-");
  }

  /** "a---b" rsplit at "--": the right-most match starts at index 2, and "a-" holds no match. */
  lemma DoubleDashPieces()
    ensures RSplit("a---b", "--") == ["b", "a-"]
  {
    var stem := "a---b";
    RightmostDoubleDash();
    assert stem[..2] == "a-" && stem[4..] == "b";
    ShortStringNoMatch(stem[..2], "--");
    RSplitLastMatchOnly(stem, "--", 2);
  }

  lemma RightmostDoubleDash()
    ensures OccursAt("a---b", "--", 2) && forall j :: 2 < j ==> !OccursAt("a---b", "--", j)
  {
    var stem := "a---b";
    assert stem[2..4] == "--";
    assert stem[3..5] != "--" by {
      assert stem[3..5][1] == stem[4] == 'b';
    }
  }

  /**
   Three pieces are skipped: a stem such as "a-b-c" is cut at every "-", not only at the
   last, so it is not renamed to "c-a-b".
   */
  lemma ThreePiecesSkipped(a: string, b: string, c: string, rule: Rule)
    requires DashRule(rule) && '-' !in a && '-' !in b && '-' !in c
    ensures Decide(a + rule.oldSep + b + rule.oldSep + c + "." + "mp3", rule) == Skip
  {
    var stem := a + rule.oldSep + b + rule.oldSep + c;
    assert stem[|a|] == '-' && |stem + "." + "mp3"| > 2;
    Candidate(stem, "mp3", rule);
    SingleCharSeparator(stem + "." + "mp3", rule, '-');
    assert multiset(stem)['-'] == 2;
  }

  /** A stem without the separator, such as "track.mp3", is skipped with a notice. */
  lemma NoSeparatorSkipped(stem: string, rule: Rule)
    requires DashRule(rule) && stem != [] && '-' !in stem
    ensures Decide(stem + "." + "mp3", rule) == Skip
  {
    assert |stem + "." + "mp3"| > 2;
    Candidate(stem, "mp3", rule);
    SingleCharSeparator(stem + "." + "mp3", rule, '-');
    assert multiset(stem)['-'] == 0;
  }

  /** An unlisted extension: "report.txt" is not a candidate when only "mp3" is listed. */
  lemma UnlistedNotCandidate(rule: Rule)
    requires rule.extensions == ["mp3"]
    ensures Decide("report" + "." + "txt", rule) == Unmatched
  {
    UnlistedExtensionUnmatched("report", "txt", rule);
  }

  /** Extensions match case-sensitively: "a-b.MP3" is not a candidate when "mp3" is listed. */
  lemma UpperCaseNotCandidate(rule: Rule)
    requires rule.extensions == ["mp3"]
    ensures Decide("a-b" + "." + "MP3", rule) == Unmatched
  {
    assert "MP3" != "mp3";
    UnlistedExtensionUnmatched("a-b", "MP3", rule);
  }

  /** A hidden name: ".mp3" has no extension and is not a candidate. */
  lemma HiddenNotCandidate(rule: Rule)
    ensures Decide("." + "mp3", rule) == Unmatched
  {
    HiddenNameUnmatched("mp3", rule);
  }

  /** The swap of two bare halves around a one-character separator needs no trimming. */
  lemma SwapBare(before: string, after: string, ext: string, rule: Rule)
    requires |rule.oldSep| == 1 && rule.oldSep[0] !in before && rule.oldSep[0] !in after
    requires Bare(before) && Bare(after)
    requires ext in rule.extensions && '.' !in ext
    requires before + rule.oldSep + after + "." + ext != ".."
    ensures Decide(before + rule.oldSep + after + "." + ext, rule)
            == Rename(after + Glue(rule) + before + "." + ext)
  {
    TrimFixpoint(before);
    TrimFixpoint(after);
    SwapAroundChar(before, after, ext, rule);
  }

  /** A word with one space on each side trims to the word. */
  lemma PaddedWord(s: string, w: string)
    requires |w| >= 1 && s == [' '] + w + [' ']
    requires !IsWhitespace(w[0]) && !IsWhitespace(w[|w| - 1])
    ensures Trim(s) == w
  {
    assert s[1..] == w + [' '];
    assert TrimStart(w + [' ']) == w + [' '];
    assert (w + [' '])[..|w|] == w;
    TrimFixpoint(w);
  }

  lemma Candidate(stem: string, ext: string, rule: Rule)
    requires stem != [] && '.' !in ext && ext in rule.extensions && stem + "." + ext != ".."
    ensures HasListedExtension(stem + "." + ext, rule.extensions)
    ensures SplitExtension(stem + "." + ext).stem == stem
  {
    SplitExtensionOfJoined(stem, ext);
    ListedExtension(stem + "." + ext, rule.extensions);
  }
}

=== FILE: strings.dfy ===
/**
 The string operations the renamer relies on: `trim` and `rsplit` with a string pattern
 from Rust's `str`, and `join` on a slice of `&str`. Strings are sequences of Unicode
 scalar values.
 */
module Strings {
  import opened Wrappers

  /** `char::is_whitespace`: the character has the Unicode White_Space property. */
  predicate IsWhitespace(c: char) {
    var n := c as int;
    if n < 0x80 then 9 <= n <= 13 || n == 0x20
    else if n < 0x2000 then n == 0x85 || n == 0xA0 || n == 0x1680
    else n <= 0x200A || n == 0x2028 || n == 0x2029 || n == 0x202F || n == 0x205F || n == 0x3000
  }

  /** `str::trim_start`: the suffix left after dropping leading whitespace. */
  function TrimStart(s: string): (r: string)
    ensures |r| <= |s| && r == s[|s| - |r|..]
    ensures forall k :: 0 <= k < |s| - |r| ==> IsWhitespace(s[k])
    ensures r == [] || !IsWhitespace(r[0])
  {
    if |s| > 0 && IsWhitespace(s[0]) then TrimStart(s[1..]) else s
  }

  /** `str::trim_end`: the prefix left after dropping trailing whitespace. */
  function TrimEnd(s: string): (r: string)
    ensures |r| <= |s| && r == s[..|r|]
    ensures forall k :: |r| <= k < |s| ==> IsWhitespace(s[k])
    ensures r == [] || !IsWhitespace(r[|r| - 1])
  {
    if |s| > 0 && IsWhitespace(s[|s| - 1]) then TrimEnd(s[..|s| - 1]) else s
  }

  /** `str::trim`: `s` without its leading and trailing whitespace. */
  function Trim(s: string): (r: string)
    ensures |r| <= |s|
    ensures r == [] || (!IsWhitespace(r[0]) && !IsWhitespace(r[|r| - 1]))
  {
    TrimEnd(TrimStart(s))
  }

  /** What trim removes is whitespace on either side, and what it keeps is a contiguous run of `s`. */
  lemma TrimKeepsInterior(s: string) returns (i: nat)
    ensures i + |Trim(s)| <= |s| && Trim(s) == s[i..i + |Trim(s)|]
    ensures forall k :: 0 <= k < i ==> IsWhitespace(s[k])
    ensures forall k :: i + |Trim(s)| <= k < |s| ==> IsWhitespace(s[k])
  {
    i := |s| - |TrimStart(s)|;
    assert TrimStart(s) == s[i..];
    TrimEndOfSuffix(s, i);
  }

  /** Trimming the end of a suffix of `s` keeps a slice of `s` and drops only whitespace after it. */
  lemma TrimEndOfSuffix(s: string, i: nat)
    requires i <= |s|
    ensures i + |TrimEnd(s[i..])| <= |s| && TrimEnd(s[i..]) == s[i..i + |TrimEnd(s[i..])|]
    ensures forall k :: i + |TrimEnd(s[i..])| <= k < |s| ==> IsWhitespace(s[k])
  {
    var t := s[i..];
    var r := TrimEnd(t);
    SliceOfSuffix(s, i, |r|);
    forall k | i + |r| <= k < |s|
      ensures IsWhitespace(s[k])
    {
      assert s[k] == t[k - i];
    }
  }

  lemma SliceOfSuffix(s: string, i: nat, n: nat)
    requires i + n <= |s|
    ensures s[i..][..n] == s[i..i + n]
  {
  }

  /** A string is its own trim exactly when neither end is whitespace. */
  lemma TrimFixpoint(s: string)
    ensures Trim(s) == s <==> (s == [] || (!IsWhitespace(s[0]) && !IsWhitespace(s[|s| - 1])))
  {
  }

  /** Trimming twice is trimming once. */
  lemma TrimIdempotent(s: string)
    ensures Trim(Trim(s)) == Trim(s)
  {
    TrimFixpoint(Trim(s));
  }

  // ---------------------------------------------------------------------------
  // Pattern occurrences

  /** `p` occurs in `s` starting at index `i`. */
  predicate OccursAt(s: string, p: string, i: int) {
    0 <= i && i + |p| <= |s| && s[i..i + |p|] == p
  }

  ghost predicate Occurs(s: string, p: string) {
    exists i :: OccursAt(s, p, i)
  }

  /** A one-character pattern occurs exactly where that character stands. */
  lemma OccursAtChar(s: string, c: char, i: int)
    ensures OccursAt(s, [c], i) <==> 0 <= i < |s| && s[i] == c
  {
    if 0 <= i < |s| && s[i] == c {
      assert s[i..i + 1] == [c];
    }
  }

  /** A one-character pattern occurs in `s` exactly when the character does. */
  lemma OccursChar(s: string, c: char)
    ensures Occurs(s, [c]) <==> c in s
  {
    if c in s {
      var k :| 0 <= k < |s| && s[k] == c;
      OccursAtChar(s, c, k);
    }
    if Occurs(s, [c]) {
      var k :| OccursAt(s, [c], k);
      OccursAtChar(s, c, k);
    }
  }

  /** An occurrence inside a slice is an occurrence in the whole string. */
  lemma OccursInSlice(s: string, p: string, lo: int, hi: int, j: int)
    requires 0 <= lo <= hi <= |s|
    requires OccursAt(s[lo..hi], p, j)
    ensures OccursAt(s, p, lo + j)
  {
    forall k | 0 <= k < |p|
      ensures s[lo + j..lo + j + |p|][k] == p[k]
    {
      assert s[lo..hi][j..j + |p|][k] == p[k];
    }
  }

  /** The right-most start index `<= hi` at which `p` occurs, if any. */
  function FindLastFrom(s: string, p: string, hi: int): (r: Option<nat>)
    decreases hi
    ensures r.Some? ==> r.value <= hi && OccursAt(s, p, r.value)
    ensures r.Some? ==> forall j :: r.value < j <= hi ==> !OccursAt(s, p, j)
    ensures r.None? ==> forall j :: j <= hi ==> !OccursAt(s, p, j)
  {
    if hi < 0 then None
    else if OccursAt(s, p, hi) then Some(hi)
    else FindLastFrom(s, p, hi - 1)
  }

  /** The right-most occurrence of `p` in `s`: where a reverse search finds its first match. */
  function FindLast(s: string, p: string): (r: Option<nat>)
    ensures r.Some? ==> OccursAt(s, p, r.value) && forall j :: r.value < j ==> !OccursAt(s, p, j)
    ensures r.None? <==> !Occurs(s, p)
  {
    FindLastFrom(s, p, |s| - |p|)
  }

  // ---------------------------------------------------------------------------
  // Sequences of pieces

  function Reverse<T>(xs: seq<T>): (r: seq<T>)
    ensures |r| == |xs|
    ensures forall k :: 0 <= k < |xs| ==> r[k] == xs[|xs| - 1 - k]
  {
    if xs == [] then [] else Reverse(xs[1..]) + [xs[0]]
  }

  /** `[&str]::join`: the pieces with `sep` between each neighbouring pair. */
  function Join(xs: seq<string>, sep: string): string {
    if |xs| == 0 then []
    else if |xs| == 1 then xs[0]
    else xs[0] + sep + Join(xs[1..], sep)
  }

  lemma {:induction false} JoinSnoc(xs: seq<string>, t: string, sep: string)
    requires |xs| >= 1
    ensures Join(xs + [t], sep) == Join(xs, sep) + sep + t
  {
    if |xs| == 1 {
      assert xs + [t] == [xs[0], t];
    } else {
      assert (xs + [t])[1..] == xs[1..] + [t];
      JoinSnoc(xs[1..], t, sep);
    }
  }

  // ---------------------------------------------------------------------------
  // rsplit

  /**
   `str::rsplit` with a string pattern, collected: the pieces of `s` between matches of
   `p`, the last piece first. The reverse searcher finds the right-most match, yields
   what follows it, and resumes in what precedes it, so every occurrence that does not
   overlap a match already taken is a split point. An empty pattern matches at every
   char boundary, the end included.
   */
  function RSplit(s: string, p: string): (pieces: seq<string>)
    decreases |s|
    ensures |pieces| >= 1
  {
    if p == [] then RSplitEmpty(s)
    else
      match FindLast(s, p)
      case None => [s]
      case Some(i) => [s[i + |p|..]] + RSplit(s[..i], p)
  }

  /** `rsplit("")`: an empty piece after the end, one piece per char from the right, an empty piece before the start. */
  function RSplitEmpty(s: string): (pieces: seq<string>)
    ensures |pieces| == |s| + 2
    ensures pieces[0] == [] && pieces[|pieces| - 1] == []
    ensures forall k :: 1 <= k <= |s| ==> pieces[k] == [s[|s| - k]]
  {
    if s == [] then [[], []]
    else [[], [s[|s| - 1]]] + RSplitEmpty(s[..|s| - 1])[1..]
  }

  /**
   rsplit cuts at the right-most match first: with a pattern that occurs, the first piece
   is what follows its right-most occurrence, and the rest are the pieces of what precedes
   it; with one that does not occur, the string is the only piece.
   */
  lemma RSplitRightmostFirst(s: string, p: string) returns (i: nat)
    requires p != []
    ensures !Occurs(s, p) ==> RSplit(s, p) == [s]
    ensures Occurs(s, p) ==>
              && OccursAt(s, p, i) && (forall j :: i < j ==> !OccursAt(s, p, j))
              && RSplit(s, p) == [s[i + |p|..]] + RSplit(s[..i], p)
  {
    if Occurs(s, p) {
      i := FindLast(s, p).value;
    } else {
      i := 0;
    }
  }

  /** With an empty pattern every string falls into at least two pieces, and a non-empty one into three or more. */
  lemma RSplitEmptyPatternCount(s: string)
    ensures |RSplit(s, [])| == |s| + 2
  {
  }

  /** Joining the pieces back in left-to-right order with the pattern rebuilds the string. */
  lemma {:induction false} RSplitRoundTrip(s: string, p: string)
    decreases |s|
    ensures Join(Reverse(RSplit(s, p)), p) == s
  {
    if p == [] {
      RSplitEmptyRoundTrip(s);
    } else {
      match FindLast(s, p)
      case None =>
      case Some(i) =>
        RSplitRoundTrip(s[..i], p);
        RoundTripStep(s[..i], p, s[i + |p|..], RSplit(s[..i], p));
        SplitAround(s, p, i);
    }
  }

  /** One step of the round trip: the piece after a match goes last. */
  lemma RoundTripStep(before: string, p: string, tail: string, rest: seq<string>)
    requires |rest| >= 1 && Join(Reverse(rest), p) == before
    ensures Join(Reverse([tail] + rest), p) == before + p + tail
  {
    ReverseCons(tail, rest);
    JoinSnoc(Reverse(rest), tail, p);
  }

  lemma AppendAssoc<T>(x: seq<T>, y: seq<T>, z: seq<T>)
    ensures x + (y + z) == (x + y) + z
  {
  }

  lemma ReverseCons<T>(x: T, xs: seq<T>)
    ensures Reverse([x] + xs) == Reverse(xs) + [x]
  {
    assert ([x] + xs)[1..] == xs;
  }

  /** A string is what lies before an occurrence, the occurrence, and what follows it. */
  lemma SplitAround(s: string, p: string, i: int)
    requires OccursAt(s, p, i)
    ensures s == s[..i] + p + s[i + |p|..]
  {
    assert s == s[..i] + s[i..i + |p|] + s[i + |p|..];
  }

  lemma {:induction false} RSplitEmptyRoundTrip(s: string)
    decreases |s|
    ensures Join(Reverse(RSplitEmpty(s)), []) == s
  {
    if s != [] {
      var s' := s[..|s| - 1];
      RSplitEmptyRoundTrip(s');
      EmptyPatternStep(RSplitEmpty(s'), s[|s| - 1]);
      assert s == s' + [s[|s| - 1]];
    }
  }

  /** One step of the empty-pattern round trip: the new last char becomes the second piece. */
  lemma EmptyPatternStep(prev: seq<string>, c: char)
    requires |prev| >= 2 && prev[0] == []
    ensures Join(Reverse([[], [c]] + prev[1..]), []) == Join(Reverse(prev), []) + [c]
  {
    ReverseLeadingEmpty(prev);
    ReverseTwoPieces(prev[1..], c);
    JoinLastChar(Reverse(prev[1..]), c);
  }

  lemma ReverseLeadingEmpty(prev: seq<string>)
    requires |prev| >= 1 && prev[0] == []
    ensures Reverse(prev) == Reverse(prev[1..]) + [[]]
  {
    assert prev == [[]] + prev[1..];
    ReverseCons([], prev[1..]);
  }

  lemma ReverseTwoPieces(tail: seq<string>, c: char)
    ensures Reverse([[], [c]] + tail) == Reverse(tail) + [[c]] + [[]]
  {
    assert [[], [c]] + tail == [[]] + ([[c]] + tail);
    ReverseCons([], [[c]] + tail);
    ReverseCons([c], tail);
  }

  lemma JoinLastChar(rt: seq<string>, c: char)
    requires |rt| >= 1
    ensures Join(rt + [[c]] + [[]], []) == Join(rt + [[]], []) + [c]
  {
    var none: string := [];
    var joined := Join(rt, none);
    JoinEmptySnoc(rt, none);
    assert Join(rt + [none], none) == joined;
    JoinEmptySnoc(rt, [c]);
    JoinEmptySnoc(rt + [[c]], none);
    assert Join(rt + [[c]] + [none], none) == joined + [c];
  }

  lemma JoinEmptySnoc(xs: seq<string>, t: string)
    requires |xs| >= 1
    ensures Join(xs + [t], []) == Join(xs, []) + t
  {
    JoinSnoc(xs, t, []);
  }

  /** With a non-empty pattern no piece contains the pattern. */
  lemma {:induction false} RSplitPiecesFree(s: string, p: string)
    requires p != []
    decreases |s|
    ensures forall k :: 0 <= k < |RSplit(s, p)| ==> !Occurs(RSplit(s, p)[k], p)
  {
    match FindLast(s, p)
    case None =>
    case Some(i) =>
      var tail := s[i + |p|..|s|];
      assert tail == s[i + |p|..];
      if Occurs(tail, p) {
        var j :| OccursAt(tail, p, j);
        OccursInSlice(s, p, i + |p|, |s|, j);
        assert false;
      }
      RSplitPiecesFree(s[..i], p);
  }

  /** If the one occurrence of `p` in `a + p + b` is the one between them, rsplit yields `[b, a]`. */
  lemma RSplitSingleOccurrence(a: string, b: string, p: string)
    requires p != []
    requires forall j :: OccursAt(a + p + b, p, j) ==> j == |a|
    ensures RSplit(a + p + b, p) == [b, a]
  {
    var s := a + p + b;
    assert s[|a|..|a| + |p|] == p;
    assert OccursAt(s, p, |a|);
    var r := FindLast(s, p);
    assert r.Some?;
    assert r.value == |a|;
    assert s[..|a|] == a;
    assert s[|a| + |p|..] == b;
    if Occurs(a, p) {
      var j :| OccursAt(a, p, j);
      assert s[..|a|] == a;
      OccursInSlice(s, p, 0, |a|, j);
      assert false;
    }
  }

  /** With a one-character pattern, the piece count is one more than the number of occurrences of that character. */
  lemma {:induction false} RSplitCharCount(s: string, c: char)
    decreases |s|
    ensures |RSplit(s, [c])| == multiset(s)[c] + 1
  {
    match FindLast(s, [c])
    case None =>
      OccursChar(s, c);
    case Some(i) =>
      LastCharCut(s, c, i);
      RSplitCharCount(s[..i], c);
  }

  /** Cutting at the last occurrence of a character removes one piece and one occurrence. */
  lemma LastCharCut(s: string, c: char, i: nat)
    requires FindLast(s, [c]) == Some(i)
    ensures i < |s|
    ensures |RSplit(s, [c])| == |RSplit(s[..i], [c])| + 1
    ensures multiset(s)[c] == multiset(s[..i])[c] + 1
  {
    OccursAtChar(s, c, i);
    var tail := s[i + 1..];
    forall k | 0 <= k < |tail|
      ensures tail[k] != c
    {
      OccursAtChar(s, c, i + 1 + k);
    }
    assert s == s[..i] + [c] + tail;
  }

  /** When the right-most match is the only one, rsplit yields what follows it and what precedes it. */
  lemma RSplitLastMatchOnly(s: string, p: string, i: nat)
    requires p != [] && OccursAt(s, p, i) && forall j :: i < j ==> !OccursAt(s, p, j)
    requires !Occurs(s[..i], p)
    ensures RSplit(s, p) == [s[i + |p|..], s[..i]]
  {
    assert Occurs(s, p);
    var k := RSplitRightmostFirst(s, p);
    assert k == i;
    var r := RSplitRightmostFirst(s[..i], p);
    assert RSplit(s[..i], p) == [s[..i]];
  }

  /** A string no longer than a pattern, and different from it, holds no match of it. */
  lemma ShortStringNoMatch(s: string, p: string)
    requires |s| <= |p| && s != p
    ensures !Occurs(s, p)
  {
  }
}

=== FILE: swap.dfy ===
/**
 The per-file decision of `rename_files_swapped`: whether a file name is a candidate,
 and if so whether its stem splits into exactly two pieces, and what the swapped name is.
 */
module Swap {
  import opened Wrappers
  import opened Strings
  import opened Paths

  /** The settings that decide a file's new name. */
  datatype Rule = Rule(extensions: seq<string>, oldSep: string, newSep: string, padding: string)

  /** A file is not a candidate (left alone silently), skipped with a notice, or renamed. */
  datatype Decision = Unmatched | Skip | Rename(newName: string)

  /**
   The text after the name's final '.' is one of `extensions`, that '.' not being the
   name's first character, and the name is not "..".
   */
  ghost predicate HasListedExtension(name: string, extensions: seq<string>) {
    && name != ".."
    && exists k :: 1 <= k < |name| && name[k] == '.' && '.' !in name[k + 1..] && name[k + 1..] in extensions
  }

  /** The text put between the swapped pieces: the join separator with padding on both sides. */
  function Glue(rule: Rule): string {
    rule.padding + rule.newSep + rule.padding
  }

  function TrimAll(xs: seq<string>): (r: seq<string>)
    ensures |r| == |xs|
    ensures forall k :: 0 <= k < |xs| ==> r[k] == Trim(xs[k])
  {
    if xs == [] then [] else [Trim(xs[0])] + TrimAll(xs[1..])
  }

  /**
   What happens to the file called `name`: its extension must equal a listed one exactly;
   its stem is rsplit at `oldSep` and each piece trimmed; exactly two pieces give the new
   name, the pieces joined in the order rsplit yields them (the last first) around
   `padding + newSep + padding`, then "." and the extension.
   */
  function Decide(name: string, rule: Rule): (d: Decision)
    ensures d.Unmatched? <==> !HasListedExtension(name, rule.extensions)
  {
    ListedExtension(name, rule.extensions);
    var parts := SplitExtension(name);
    if parts.ext.None? || parts.ext.value !in rule.extensions then
      Unmatched
    else
      var pieces := TrimAll(RSplit(parts.stem, rule.oldSep));
      if |pieces| != 2 then
        Skip
      else
        Rename(Join(pieces, Glue(rule)) + "." + parts.ext.value)
  }

  /**
   The extension Path reports is listed exactly when the name is not "..", its final '.'
   is not its first character, and the text after that '.' is listed.
   */
  lemma ListedExtension(name: string, extensions: seq<string>)
    ensures (SplitExtension(name).ext.Some? && SplitExtension(name).ext.value in extensions)
            <==> HasListedExtension(name, extensions)
  {
    var parts := SplitExtension(name);
    if parts.ext.Some? {
      var i := |parts.stem|;
      assert name[i] == '.';
      assert name[i + 1..] == parts.ext.value;
      if HasListedExtension(name, extensions) {
        var k :| 1 <= k < |name| && name[k] == '.' && '.' !in name[k + 1..] && name[k + 1..] in extensions;
      }
    }
  }

  /** A name whose extension is not listed, compared exactly and letter case included, is left alone. */
  lemma UnlistedExtensionUnmatched(stem: string, ext: string, rule: Rule)
    requires stem != [] && '.' !in ext && stem + "." + ext != ".."
    requires ext !in rule.extensions
    ensures Decide(stem + "." + ext, rule) == Unmatched
  {
    SplitExtensionOfJoined(stem, ext);
  }

  /** A hidden name, whose only '.' is its first character, has no extension and is left alone. */
  lemma HiddenNameUnmatched(rest: string, rule: Rule)
    requires '.' !in rest
    ensures Decide("." + rest, rule) == Unmatched
  {
    var name := "." + rest;
    forall k | 1 <= k < |name|
      ensures name[k] != '.'
    {
      assert name[k] == rest[k - 1];
    }
    assert !HasInnerDot(name);
  }

  /** An empty split separator cuts every non-empty stem into three or more pieces, so nothing is renamed. */
  lemma EmptySeparatorNeverRenames(name: string, rule: Rule)
    requires rule.oldSep == []
    ensures !Decide(name, rule).Rename?
  {
    var parts := SplitExtension(name);
    if parts.ext.Some? {
      RSplitEmptyPatternCount(parts.stem);
    }
  }

  /**
   A renamed file's name was `before + oldSep + after + "." + ext`, with the separator in
   neither half; the new name puts the trimmed `after` first and the trimmed `before` last
   around the padded join separator, and keeps the extension.
   */
  lemma RenameSwapsHalves(name: string, rule: Rule) returns (before: string, after: string, ext: string)
    requires Decide(name, rule).Rename?
    ensures rule.oldSep != []
    ensures name == before + rule.oldSep + after + "." + ext
    ensures SplitExtension(name) == NameParts(before + rule.oldSep + after, Some(ext))
    ensures ext in rule.extensions && '.' !in ext
    ensures RSplit(before + rule.oldSep + after, rule.oldSep) == [after, before]
    ensures !Occurs(before, rule.oldSep) && !Occurs(after, rule.oldSep)
    ensures Decide(name, rule).newName
            == Trim(after) + Glue(rule) + Trim(before) + "." + ext
  {
    if rule.oldSep == [] {
      EmptySeparatorNeverRenames(name, rule);
      assert false;
    }
    var parts := SplitExtension(name);
    var stem := parts.stem;
    ext := parts.ext.value;
    var pieces := RSplit(stem, rule.oldSep);
    assert |TrimAll(pieces)| == 2;
    after, before := pieces[0], pieces[1];
    assert pieces == [after, before];
    RSplitRoundTrip(stem, rule.oldSep);
    assert Reverse(pieces) == [before, after];
    JoinPair(before, after, rule.oldSep);
    assert stem == before + rule.oldSep + after;
    RSplitPiecesFree(stem, rule.oldSep);
    assert !Occurs(pieces[0], rule.oldSep) && !Occurs(pieces[1], rule.oldSep);
    DecideTwoPieces(name, rule, stem, ext, after, before);
  }

  lemma JoinPair(x: string, y: string, sep: string)
    ensures Join([x, y], sep) == x + sep + y
  {
    assert [x, y][1..] == [y];
  }

  /** A candidate whose stem rsplits into two pieces is renamed to them, trimmed, around the padded join separator. */
  lemma DecideTwoPieces(name: string, rule: Rule, stem: string, ext: string, last: string, first: string)
    requires SplitExtension(name) == NameParts(stem, Some(ext)) && ext in rule.extensions
    requires RSplit(stem, rule.oldSep) == [last, first]
    ensures Decide(name, rule)
            == Rename(Trim(last) + Glue(rule) + Trim(first) + "." + ext)
  {
    assert SplitExtension(name).stem == stem && SplitExtension(name).ext == Some(ext);
    var pieces := TrimAll(RSplit(stem, rule.oldSep));
    assert pieces == [Trim(last), Trim(first)];
    JoinPair(Trim(last), Trim(first), Glue(rule));
    assert Decide(name, rule) == Rename(Join(pieces, Glue(rule)) + "." + ext);
  }

  /**
   Conversely, a name whose stem holds the split separator exactly once, between `before`
   and `after`, with a listed extension, is renamed to the swapped halves.
   */
  lemma SwapOfSingleOccurrence(before: string, after: string, ext: string, rule: Rule)
    requires rule.oldSep != []
    requires forall j :: OccursAt(before + rule.oldSep + after, rule.oldSep, j) ==> j == |before|
    requires ext in rule.extensions && '.' !in ext
    requires before + rule.oldSep + after + "." + ext != ".."
    ensures Decide(before + rule.oldSep + after + "." + ext, rule)
            == Rename(Trim(after) + Glue(rule) + Trim(before) + "." + ext)
  {
    var stem := before + rule.oldSep + after;
    SplitExtensionOfJoined(stem, ext);
    RSplitSingleOccurrence(before, after, rule.oldSep);
    DecideTwoPieces(stem + "." + ext, rule, stem, ext, after, before);
  }

  /**
   The same for a one-character split separator: a name `before + sep + after + "." + ext`
   whose halves do not contain the separator character is renamed to the swapped halves.
   */
  lemma SwapAroundChar(before: string, after: string, ext: string, rule: Rule)
    requires |rule.oldSep| == 1 && rule.oldSep[0] !in before && rule.oldSep[0] !in after
    requires ext in rule.extensions && '.' !in ext
    requires before + rule.oldSep + after + "." + ext != ".."
    ensures Decide(before + rule.oldSep + after + "." + ext, rule)
            == Rename(Trim(after) + Glue(rule) + Trim(before) + "." + ext)
  {
    var c := rule.oldSep[0];
    assert rule.oldSep == [c];
    OccursChar(before, c);
    OccursChar(after, c);
    OnlyOccurrenceBetween(before, after, c);
    SwapOfSingleOccurrence(before, after, ext, rule);
  }

  /**
   With a one-character split separator, a candidate is renamed exactly when its stem
   holds that character once, and skipped when it holds it zero times or two or more.
   */
  lemma SingleCharSeparator(name: string, rule: Rule, c: char)
    requires rule.oldSep == [c]
    requires HasListedExtension(name, rule.extensions)
    ensures Decide(name, rule).Rename? <==> multiset(SplitExtension(name).stem)[c] == 1
    ensures Decide(name, rule).Skip? <==> multiset(SplitExtension(name).stem)[c] != 1
  {
    ListedExtension(name, rule.extensions);
    RSplitCharCount(SplitExtension(name).stem, c);
  }

  /** The pieces rsplit cuts the stem of `name` into have no surrounding whitespace. */
  predicate PiecesTrimmed(name: string, rule: Rule) {
    var pieces := RSplit(SplitExtension(name).stem, rule.oldSep);
    forall k :: 0 <= k < |pieces| ==> Trim(pieces[k]) == pieces[k]
  }

  /**
   Renaming twice restores the name when the split and join separators are the same single
   character, the padding is empty and the two pieces carry no surrounding whitespace.
   */
  lemma SwapTwiceRestores(name: string, rule: Rule)
    requires |rule.oldSep| == 1 && rule.newSep == rule.oldSep && rule.padding == []
    requires Decide(name, rule).Rename?
    requires PiecesTrimmed(name, rule)
    ensures Decide(Decide(name, rule).newName, rule) == Rename(name)
  {
    var before, after, ext := RenameSwapsHalves(name, rule);
    var pieces := RSplit(SplitExtension(name).stem, rule.oldSep);
    assert pieces == [after, before];
    assert Trim(pieces[0]) == pieces[0] && Trim(pieces[1]) == pieces[1];
    GlueWithoutPadding(rule);
    assert Decide(name, rule).newName == after + rule.oldSep + before + "." + ext;
    assert HasListedExtension(name, rule.extensions);
    SwapBack(before, after, ext, rule);
  }

  /** The swapped name of a one-separator name swaps back to it. */
  lemma SwapBack(before: string, after: string, ext: string, rule: Rule)
    requires |rule.oldSep| == 1 && rule.newSep == rule.oldSep && rule.padding == []
    requires !Occurs(before, rule.oldSep) && !Occurs(after, rule.oldSep)
    requires Trim(before) == before && Trim(after) == after
    requires ext in rule.extensions && '.' !in ext
    requires before + rule.oldSep + after + "." + ext != ".."
    ensures Decide(after + rule.oldSep + before + "." + ext, rule) == Rename(before + rule.oldSep + after + "." + ext)
  {
    var sep := rule.oldSep;
    assert sep == [sep[0]];
    GlueWithoutPadding(rule);
    OnlyOccurrenceBetween(after, before, sep[0]);
    SameLengthSwap(before, after, ext, sep);
    SwapOfSingleOccurrence(after, before, ext, rule);
  }

  lemma SameLengthSwap(before: string, after: string, ext: string, sep: string)
    requires before + sep + after + "." + ext != ".."
    ensures after + sep + before + "." + ext != ".."
  {
    var swapped := after + sep + before + "." + ext;
    assert |swapped| == |before + sep + after + "." + ext|;
  }

  lemma GlueWithoutPadding(rule: Rule)
    requires rule.padding == []
    ensures Glue(rule) == rule.newSep
  {
    assert [] + rule.newSep + [] == rule.newSep;
  }

  /** A character absent from both halves occurs only where it joins them. */
  lemma OnlyOccurrenceBetween(a: string, b: string, c: char)
    requires !Occurs(a, [c]) && !Occurs(b, [c])
    ensures forall j :: OccursAt(a + [c] + b, [c], j) ==> j == |a|
  {
    forall j | OccursAt(a + [c] + b, [c], j)
      ensures j == |a|
    {
      OccursAtChar(a + [c] + b, c, j);
      if j < |a| {
        OccursAtChar(a, c, j);
      } else if j > |a| {
        OccursAtChar(b, c, j - |a| - 1);
      }
    }
  }
}

=== FILE: walk.dfy ===
/**
 The directory walk of `rename_files_swapped`: the listing is visited entry by entry;
 a sub-directory is walked (when the walk is recursive) and never renamed itself; a file
 is renamed as the per-file decision says (`Swap.Decide` for the rule of the run, wired in
 by `Invocation`). The first I/O error ends the whole walk, keeping the renames already
 made, and the walk reports either that error or how many files it renamed.
 */
module Walk {
  import opened Swap
  import Strings

  /**
   A directory as the walk sees it. `listable` is false when listing it fails; an entry
   that cannot be read is `Unreadable`; a file whose rename would fail is not `movable`.
   */
  datatype Dir = Dir(listable: bool, entries: seq<Entry>)
  datatype Entry = File(name: string, movable: bool) | Subdir(name: string, dir: Dir) | Unreadable

  /** The I/O errors that end a walk. */
  datatype IoError = ListingFailed | EntryFailed | RenameFailed(from: string, to: string)

  /** The walk's result: the number of files renamed, or the error that ended it. */
  datatype Outcome = Done(count: nat) | Failed(error: IoError)

  /** The settings of one run: what happens to a file with a given name, and whether the walk descends. */
  datatype Config = Config(decide: string -> Decision, recursive: bool)

  /** What a walk leaves behind, and how it ended. */
  datatype Walked<T> = Walked(after: T, outcome: Outcome)

  /** The name a file ends up with: the swapped name when it is renamed, its own otherwise. */
  function NewName(name: string, decide: string -> Decision): string {
    match decide(name)
    case Rename(newName) => newName
    case _ => name
  }

  /** The walk of one directory; it keeps the directory's listing the same length. */
  function WalkDir(d: Dir, cfg: Config): (r: Walked<Dir>)
    decreases d
    ensures r.after.listable == d.listable && |r.after.entries| == |d.entries|
  {
    if !d.listable then Walked(d, Failed(ListingFailed))
    else
      var w := WalkEntries(d.entries, cfg);
      Walked(Dir(true, w.after), w.outcome)
  }

  /** The walk of a listing, entry by entry, stopping at the first failure. */
  function WalkEntries(es: seq<Entry>, cfg: Config): (r: Walked<seq<Entry>>)
    decreases es
    ensures |r.after| == |es|
  {
    if es == [] then Walked([], Done(0))
    else
      var first := WalkEntry(es[0], cfg);
      match first.outcome
      case Failed(err) => Walked([first.after] + es[1..], Failed(err))
      case Done(n) =>
        var rest := WalkEntries(es[1..], cfg);
        Walked([first.after] + rest.after, Add(n, rest.outcome))
  }

  function Add(n: nat, o: Outcome): Outcome {
    match o
    case Done(m) => Done(n + m)
    case Failed(_) => o
  }

  /** The walk of one entry: a sub-directory stays a sub-directory of the same name, a file stays a file. */
  function WalkEntry(e: Entry, cfg: Config): (r: Walked<Entry>)
    decreases e
    ensures e.Subdir? ==> r.after.Subdir? && r.after.name == e.name
    ensures e.File? ==> r.after.File? && r.after.movable == e.movable
    ensures e.Unreadable? ==> r.after == e
  {
    match e
    case Unreadable => Walked(e, Failed(EntryFailed))
    case Subdir(name, sub) =>
      if cfg.recursive then
        var w := WalkDir(sub, cfg);
        Walked(Subdir(name, w.after), w.outcome)
      else Walked(e, Done(0))
    case File(name, movable) =>
      match cfg.decide(name)
      case Rename(newName) =>
        if movable then Walked(File(newName, movable), Done(1))
        else Walked(e, Failed(RenameFailed(name, newName)))
      case _ => Walked(e, Done(0))
  }

  /*
   Reference definitions, independent of the walk's error handling.
   */

  /**
   A directory the walk gets through without error: it can be listed, every entry can
   be read, every file the decision renames can be moved, and, when the walk is recursive,
   every sub-directory is healthy too.
   */
  predicate Healthy(d: Dir, cfg: Config)
    decreases d
  {
    d.listable && forall k :: 0 <= k < |d.entries| ==> EntryHealthy(d.entries[k], cfg)
  }

  predicate EntryHealthy(e: Entry, cfg: Config)
    decreases e
  {
    match e
    case Unreadable => false
    case Subdir(_, sub) => !cfg.recursive || Healthy(sub, cfg)
    case File(name, movable) => movable || !cfg.decide(name).Rename?
  }

  /** The names of the files the walk reaches, in listing order. */
  function Visited(d: Dir, recursive: bool): seq<string>
    decreases d
  {
    VisitedEntries(d.entries, recursive)
  }

  function VisitedEntries(es: seq<Entry>, recursive: bool): seq<string>
    decreases es
  {
    if es == [] then []
    else VisitedEntry(es[0], recursive) + VisitedEntries(es[1..], recursive)
  }

  function VisitedEntry(e: Entry, recursive: bool): seq<string>
    decreases e
  {
    match e
    case File(name, _) => [name]
    case Subdir(_, sub) => if recursive then Visited(sub, recursive) else []
    case Unreadable => []
  }

  /** How many of `names` the decision renames. */
  function CountRenames(names: seq<string>, decide: string -> Decision): nat {
    if names == [] then 0
    else (if decide(names[0]).Rename? then 1 else 0) + CountRenames(names[1..], decide)
  }

  /** Each name replaced by the name it ends up with. */
  function NewNames(names: seq<string>, decide: string -> Decision): (r: seq<string>)
    ensures |r| == |names|
    ensures forall k :: 0 <= k < |names| ==> r[k] == NewName(names[k], decide)
  {
    if names == [] then [] else [NewName(names[0], decide)] + NewNames(names[1..], decide)
  }

  /** The tree as it is once every file the walk reaches has its new name. */
  function RenamedTree(d: Dir, cfg: Config): Dir
    decreases d
  {
    Dir(d.listable, RenamedEntries(d.entries, cfg))
  }

  function RenamedEntries(es: seq<Entry>, cfg: Config): seq<Entry>
    decreases es
  {
    if es == [] then [] else [RenamedEntry(es[0], cfg)] + RenamedEntries(es[1..], cfg)
  }

  function RenamedEntry(e: Entry, cfg: Config): Entry
    decreases e
  {
    match e
    case File(name, movable) => File(NewName(name, cfg.decide), movable)
    case Subdir(name, sub) => if cfg.recursive then Subdir(name, RenamedTree(sub, cfg)) else e
    case Unreadable => e
  }

  /**
   `d2` is `d` with some of its files renamed: the same shape, every directory keeping its
   name, every file keeping its name or taking its new one, and, when the walk is not
   recursive, every sub-directory exactly as it was.
   */
  predicate Evolved(d: Dir, d2: Dir, cfg: Config)
    decreases d
  {
    && d2.listable == d.listable
    && |d2.entries| == |d.entries|
    && forall k :: 0 <= k < |d.entries| ==> EntryEvolved(d.entries[k], d2.entries[k], cfg)
  }

  predicate EntryEvolved(e: Entry, e2: Entry, cfg: Config)
    decreases e
  {
    match e
    case File(name, movable) => e2 == e || e2 == File(NewName(name, cfg.decide), movable)
    case Subdir(name, sub) =>
      && e2.Subdir? && e2.name == name
      && (if cfg.recursive then Evolved(sub, e2.dir, cfg) else e2.dir == sub)
    case Unreadable => e2 == e
  }

  /*
   The walk against the reference definitions.
   */

  /**
   On a healthy tree the walk ends without error, leaves every file it reaches under its
   new name, and reports how many of the names it reached the decision renames.
   */
  lemma {:induction false} HealthyWalk(d: Dir, cfg: Config)
    requires Healthy(d, cfg)
    ensures WalkDir(d, cfg)
            == Walked(RenamedTree(d, cfg), Done(CountRenames(Visited(d, cfg.recursive), cfg.decide)))
    decreases d
  {
    HealthyWalkEntries(d.entries, cfg);
  }

  lemma {:induction false} HealthyWalkEntries(es: seq<Entry>, cfg: Config)
    requires forall k :: 0 <= k < |es| ==> EntryHealthy(es[k], cfg)
    ensures WalkEntries(es, cfg)
            == Walked(RenamedEntries(es, cfg), Done(CountRenames(VisitedEntries(es, cfg.recursive), cfg.decide)))
    decreases es
  {
    if es != [] {
      HealthyWalkEntry(es[0], cfg);
      HealthyWalkEntries(es[1..], cfg);
      CountRenamesAppend(VisitedEntry(es[0], cfg.recursive), VisitedEntries(es[1..], cfg.recursive), cfg.decide);
    }
  }

  lemma {:induction false} HealthyWalkEntry(e: Entry, cfg: Config)
    requires EntryHealthy(e, cfg)
    ensures WalkEntry(e, cfg)
            == Walked(RenamedEntry(e, cfg), Done(CountRenames(VisitedEntry(e, cfg.recursive), cfg.decide)))
    decreases e
  {
    match e
    case Subdir(_, sub) =>
      if cfg.recursive {
        HealthyWalk(sub, cfg);
      }
    case File(name, _) =>
      assert CountRenames([name], cfg.decide) == if cfg.decide(name).Rename? then 1 else 0;
    case Unreadable =>
  }

  lemma {:induction false} CountRenamesAppend(a: seq<string>, b: seq<string>, decide: string -> Decision)
    ensures CountRenames(a + b, decide) == CountRenames(a, decide) + CountRenames(b, decide)
  {
    if a != [] {
      assert (a + b)[0] == a[0] && (a + b)[1..] == a[1..] + b;
      CountRenamesAppend(a[1..], b, decide);
    } else {
      assert a + b == b;
    }
  }

  /** The walk fails exactly on a tree that is not healthy. */
  lemma WalkFailsIffUnhealthy(d: Dir, cfg: Config)
    ensures WalkDir(d, cfg).outcome.Failed? <==> !Healthy(d, cfg)
  {
    if Healthy(d, cfg) {
      HealthyWalk(d, cfg);
    } else {
      UnhealthyFails(d, cfg);
    }
  }

  lemma {:induction false} UnhealthyFails(d: Dir, cfg: Config)
    requires !Healthy(d, cfg)
    ensures WalkDir(d, cfg).outcome.Failed?
    decreases d
  {
    if d.listable {
      UnhealthyFailsEntries(d.entries, cfg);
    }
  }

  lemma {:induction false} UnhealthyFailsEntries(es: seq<Entry>, cfg: Config)
    requires exists k :: 0 <= k < |es| && !EntryHealthy(es[k], cfg)
    ensures WalkEntries(es, cfg).outcome.Failed?
    decreases es
  {
    if EntryHealthy(es[0], cfg) {
      HealthyWalkEntry(es[0], cfg);
      var k :| 0 <= k < |es| && !EntryHealthy(es[k], cfg);
      assert es[1..][k - 1] == es[k];
      UnhealthyFailsEntries(es[1..], cfg);
    } else {
      UnhealthyFailsEntry(es[0], cfg);
    }
  }

  lemma {:induction false} UnhealthyFailsEntry(e: Entry, cfg: Config)
    requires !EntryHealthy(e, cfg)
    ensures WalkEntry(e, cfg).outcome.Failed?
    decreases e
  {
    match e
    case Subdir(_, sub) =>
      UnhealthyFails(sub, cfg);
    case File(_, _) =>
    case Unreadable =>
  }

  /**
   The walk stops at the first entry that fails: the entries before it are renamed as on
   a healthy tree, that entry's own error is the walk's, and the entries after it are
   left exactly as they were.
   */
  lemma {:induction false} AbortKeepsRest(es: seq<Entry>, cfg: Config) returns (k: nat)
    requires WalkEntries(es, cfg).outcome.Failed?
    ensures k < |es|
    ensures !EntryHealthy(es[k], cfg)
    ensures forall j :: 0 <= j < k ==> EntryHealthy(es[j], cfg)
    ensures WalkEntries(es, cfg).outcome == WalkEntry(es[k], cfg).outcome
    ensures WalkEntries(es, cfg).after
            == RenamedEntries(es[..k], cfg) + [WalkEntry(es[k], cfg).after] + es[k + 1..]
    decreases es
  {
    if EntryHealthy(es[0], cfg) {
      HealthyWalkEntry(es[0], cfg);
      var first, rest := WalkEntry(es[0], cfg), WalkEntries(es[1..], cfg);
      var k' := AbortKeepsRest(es[1..], cfg);
      k := k' + 1;
      assert WalkEntries(es, cfg) == Walked([first.after] + rest.after, rest.outcome);
      assert es[k] == es[1..][k'] && es[k + 1..] == es[1..][k' + 1..];
      forall j | 0 <= j < k
        ensures EntryHealthy(es[j], cfg)
      {
        if j > 0 {
          assert es[j] == es[1..][j - 1];
        }
      }
      var done, failed := RenamedEntries(es[1..][..k'], cfg), [WalkEntry(es[k], cfg).after];
      assert [first.after] + rest.after == RenamedEntries(es[..k], cfg) + failed + es[k + 1..] by {
        RenamedPrefixStep(es, k, cfg);
        Strings.AppendAssoc([first.after], done + failed, es[k + 1..]);
        Strings.AppendAssoc([first.after], done, failed);
      }
    } else {
      k := 0;
      UnhealthyFailsEntry(es[0], cfg);
      assert es[..0] == [];
    }
  }

  lemma RenamedPrefixStep(es: seq<Entry>, k: nat, cfg: Config)
    requires 1 <= k <= |es|
    ensures RenamedEntries(es[..k], cfg) == [RenamedEntry(es[0], cfg)] + RenamedEntries(es[1..][..k - 1], cfg)
  {
    assert es[..k][0] == es[0] && es[..k][1..] == es[1..][..k - 1];
  }

  /** Whether it fails or not, the walk only ever renames files, and only to their new names. */
  lemma {:induction false} WalkEvolves(d: Dir, cfg: Config)
    ensures Evolved(d, WalkDir(d, cfg).after, cfg)
    decreases d
  {
    if d.listable {
      WalkEntriesEvolve(d.entries, cfg);
    } else {
      EvolvedReflexive(d, cfg);
    }
  }

  lemma {:induction false} WalkEntriesEvolve(es: seq<Entry>, cfg: Config)
    ensures |WalkEntries(es, cfg).after| == |es|
    ensures forall k :: 0 <= k < |es| ==> EntryEvolved(es[k], WalkEntries(es, cfg).after[k], cfg)
    decreases es
  {
    if es != [] {
      var first := WalkEntry(es[0], cfg);
      WalkEntryEvolves(es[0], cfg);
      if first.outcome.Failed? {
        EntriesEvolvedReflexive(es[1..], cfg);
      } else {
        WalkEntriesEvolve(es[1..], cfg);
      }
    }
  }

  lemma {:induction false} WalkEntryEvolves(e: Entry, cfg: Config)
    ensures EntryEvolved(e, WalkEntry(e, cfg).after, cfg)
    decreases e
  {
    match e
    case Subdir(_, sub) =>
      if cfg.recursive {
        WalkEvolves(sub, cfg);
      }
    case File(_, _) =>
    case Unreadable =>
  }

  lemma {:induction false} EvolvedReflexive(d: Dir, cfg: Config)
    ensures Evolved(d, d, cfg)
    decreases d
  {
    EntriesEvolvedReflexive(d.entries, cfg);
  }

  lemma {:induction false} EntriesEvolvedReflexive(es: seq<Entry>, cfg: Config)
    ensures forall k :: 0 <= k < |es| ==> EntryEvolved(es[k], es[k], cfg)
    decreases es
  {
    forall k | 0 <= k < |es|
      ensures EntryEvolved(es[k], es[k], cfg)
    {
      if es[k].Subdir? && cfg.recursive {
        EvolvedReflexive(es[k].dir, cfg);
      }
    }
  }

  /** After a healthy walk, the files it reaches carry, in order, the new names of the files it reached. */
  lemma {:induction false} VisitedAfterRenaming(d: Dir, cfg: Config)
    ensures Visited(RenamedTree(d, cfg), cfg.recursive) == NewNames(Visited(d, cfg.recursive), cfg.decide)
    decreases d
  {
    VisitedAfterRenamingEntries(d.entries, cfg);
  }

  lemma {:induction false} VisitedAfterRenamingEntries(es: seq<Entry>, cfg: Config)
    ensures VisitedEntries(RenamedEntries(es, cfg), cfg.recursive)
            == NewNames(VisitedEntries(es, cfg.recursive), cfg.decide)
    decreases es
  {
    if es != [] {
      var renamed := RenamedEntries(es, cfg);
      assert renamed[0] == RenamedEntry(es[0], cfg);
      assert renamed[1..] == RenamedEntries(es[1..], cfg);
      VisitedAfterRenamingEntry(es[0], cfg);
      VisitedAfterRenamingEntries(es[1..], cfg);
      NewNamesAppend(VisitedEntry(es[0], cfg.recursive), VisitedEntries(es[1..], cfg.recursive), cfg.decide);
    }
  }

  lemma {:induction false} VisitedAfterRenamingEntry(e: Entry, cfg: Config)
    ensures VisitedEntry(RenamedEntry(e, cfg), cfg.recursive) == NewNames(VisitedEntry(e, cfg.recursive), cfg.decide)
    decreases e
  {
    match e
    case Subdir(_, sub) =>
      if cfg.recursive {
        VisitedAfterRenaming(sub, cfg);
      }
    case File(_, _) =>
    case Unreadable =>
  }

  lemma NewNamesAppend(a: seq<string>, b: seq<string>, decide: string -> Decision)
    ensures NewNames(a + b, decide) == NewNames(a, decide) + NewNames(b, decide)
  {
  }

  /**
   `es2` lists the same files as `es`, and sub-directories of the same names, whatever
   those sub-directories hold.
   */
  predicate SameLevel(es: seq<Entry>, es2: seq<Entry>) {
    && |es2| == |es|
    && forall k :: 0 <= k < |es| ==>
         es2[k] == es[k] || (es[k].Subdir? && es2[k].Subdir? && es2[k].name == es[k].name)
  }

  /**
   A walk that is not recursive never looks inside a sub-directory: two listings that
   differ only in what their sub-directories hold end the same way and rename the same files.
   */
  lemma {:induction false} NonRecursiveIgnoresSubdirs(es: seq<Entry>, es2: seq<Entry>, cfg: Config)
    requires !cfg.recursive && SameLevel(es, es2)
    ensures WalkEntries(es2, cfg).outcome == WalkEntries(es, cfg).outcome
    ensures SameLevel(WalkEntries(es, cfg).after, WalkEntries(es2, cfg).after)
    decreases es
  {
    if es != [] {
      assert SameLevel(es[1..], es2[1..]);
      NonRecursiveIgnoresSubdirs(es[1..], es2[1..], cfg);
    }
  }
}

=== FILE: wrappers.dfy ===
/** The optional value used wherever the renamer's library calls answer "maybe". */
module Wrappers {

  datatype Option<+T> = None | Some(value: T)
}
